=== FILE: README.md ===
# RunScript launcher — a Dafny model

This project models the JSR-223 script launcher `RunScript` of the `jolt-jni-docs`
repository. The launcher is a console application. Its command line
is an engine (script-engine factory) name, a script path and any number of
class-list files. It resolves the engine, imports every Java class named in
the class lists into the engine, and then evaluates the script.

The model is functional. Strings are `seq<char>`. A run of the launcher is
the function `Launcher.RunScript(args, host)`, which returns a `Run`: the
ordered sequence of requests handed to the engine's evaluator (import
snippets, then the script) and the `Status` the run ends with. `ExitCode`
maps each status to the process exit status. The world outside the program
is a `Host` value:

- `engines`: the factory names the script-engine manager resolves;
- `files`: the readable files and their decoded text;
- `rejected`: the texts on which the engine's `eval` raises a `ScriptException`.

Modules, one per concern of `RunScript.java`:

- `Strings`: ASCII upper-casing, `firstToUpper`, and `String.lastIndexOf`.
- `ClassNames`: splitting a class name at its last `.`, and its round trip.
- `Dialects`: the import switch. It holds the five dialects (jruby, jython,
  lua54, luaj, nashorn), the exact snippet each one produces, and the two
  skip cases and two failure cases.
- `LineScanner`: how `java.util.Scanner` cuts a class-list file into lines.
  `"\r\n"` is one separator. `\n`, `\r`, U+0085, U+2028 and U+2029 each end a
  line. Non-empty text after the last separator is one more line.
- `Launcher`: argument handling, the class-list loop, the per-file loop, and
  the whole run.

The import switch is keyed on the factory name as typed, not on the engine
that the lookup found. So an engine found under an alias the switch does not
know (`python`, say) fails with an uncaught exception at the first class it
is asked to import. It runs a script only when every class list is empty
(`UnknownFactoryRunsOnlyWithoutClasses`). A class name without a `.` fails
before the switch is consulted, whatever the engine. That includes the empty
name that a blank line in a class list produces.

The exit statuses follow the code. With fewer than two arguments
(`RunScript.java:91`), or when no engine is found (`RunScript.java:108`), the
launcher exits with status 0. A missing script (`RunScript.java:133`), a
`ScriptException` from the script (`RunScript.java:141`), a
`ScriptException` from an import snippet (`RunScript.java:212`) and a missing
class list (`RunScript.java:229`) each exit with status 1. Exceptions escaping
`importClass` also give status 1, the JVM's status for an uncaught exception.

## Model

| member | source | states |
|---|---|---|
| `Strings.FirstToUpper` | java-apps/src/main/java/com/github/stephengold/jsr223/RunScript.java:151-161 | the result has the input's length; its first character is the upper-cased first character of the input; every character from index 1 on is unchanged (so empty input comes back empty) |
| `Strings.UpperAscii` | java-apps/src/main/java/com/github/stephengold/jsr223/RunScript.java:155 | the result is never a lower-case ASCII letter; a lower-case ASCII letter maps to the upper-case letter 32 code points below it, and every other character is unchanged |
| `Strings.FirstToUpperIdempotent` | java-apps/src/main/java/com/github/stephengold/jsr223/RunScript.java:151-161 | applying firstToUpper twice gives the same text as applying it once |
| `Strings.FirstToUpperFixedPoints` | java-apps/src/main/java/com/github/stephengold/jsr223/RunScript.java:151-161 | firstToUpper leaves its input unchanged exactly when the input is empty or does not start with a lower-case letter |
| `Strings.LastIndexOf` | java-apps/src/main/java/com/github/stephengold/jsr223/RunScript.java:169 | the result is -1 exactly when the character does not occur; otherwise it is an occurrence with no occurrence after it |
| `ClassNames.Split` | java-apps/src/main/java/com/github/stephengold/jsr223/RunScript.java:169-172 | a name has a package/simple split exactly when it contains a '.'; package + "." + simple rebuilds the name, and the simple name has no '.' |
| `ClassNames.SplitFullName` | java-apps/src/main/java/com/github/stephengold/jsr223/RunScript.java:169-172 | splitting package + "." + simple, for any simple name without '.', gives back exactly that package and simple name |
| `Dialects.DialectNamed` | java-apps/src/main/java/com/github/stephengold/jsr223/RunScript.java:175-203 | a factory name selects a dialect exactly when it is that dialect's name; any other name selects none |
| `Dialects.DialectNamedFactoryName` | java-apps/src/main/java/com/github/stephengold/jsr223/RunScript.java:175-203 | each of the five dialects is selected by its own factory name |
| `Dialects.ImportClass` | java-apps/src/main/java/com/github/stephengold/jsr223/RunScript.java:168-204 | a snippet is produced only for a name containing a `.` under one of the named dialects other than lua54; the full case analysis is stated by `ImportClassOutcomes` and the exact snippets by the per-dialect lemmas below |
| `Dialects.ImportClassOutcomes` | java-apps/src/main/java/com/github/stephengold/jsr223/RunScript.java:168-204 | a name without '.' fails first; then an unknown factory name fails; an import fails exactly in those two cases and is skipped exactly for lua54 or for jruby with simple name `Mutex` |
| `Dialects.JythonSnippet` | java-apps/src/main/java/com/github/stephengold/jsr223/RunScript.java:184-187 | the jython snippet for package.Simple is `from package import Simple` |
| `Dialects.LuajSnippet` | java-apps/src/main/java/com/github/stephengold/jsr223/RunScript.java:192-195 | the luaj snippet is `Simple = luajava.bindClass("package.Simple")` |
| `Dialects.NashornSnippet` | java-apps/src/main/java/com/github/stephengold/jsr223/RunScript.java:197-200 | the nashorn snippet is `var Simple = Java.type('package.Simple');` |
| `Dialects.JRubySnippet` | java-apps/src/main/java/com/github/stephengold/jsr223/RunScript.java:176-182 | the jruby snippet is `java_import Java::` followed by the full name with its first character upper-cased, except that simple name `Mutex` is skipped |
| `Dialects.Lua54Skips` | java-apps/src/main/java/com/github/stephengold/jsr223/RunScript.java:189-190 | lua54 skips every class name that has a package |
| `LineScanner.LinesAreSeparatorFree` | java-apps/src/main/java/com/github/stephengold/jsr223/RunScript.java:234-238 | no line read from a class list contains a line separator, and only an empty file has no lines |
| `LineScanner.Lines` | java-apps/src/main/java/com/github/stephengold/jsr223/RunScript.java:234-238 | a text yields no lines exactly when it is empty, and never more lines than it has characters; the exact lines are stated by the lemmas below |
| `LineScanner.LinesOfTerminated` | java-apps/src/main/java/com/github/stephengold/jsr223/RunScript.java:234-238 | a file of lines each ended by the same terminator (LF, CR, CRLF, NEL, LS or PS) reads back as exactly those lines, in order |
| `LineScanner.LinesOfTerminatedThen` | java-apps/src/main/java/com/github/stephengold/jsr223/RunScript.java:234-238 | the terminated lines are read first, in order, and reading then continues with whatever text follows them |
| `LineScanner.LinesOfUnterminated` | java-apps/src/main/java/com/github/stephengold/jsr223/RunScript.java:234-238 | a final line without a terminator is still read, after all the terminated ones |
| `Launcher.ParseArguments` | java-apps/src/main/java/com/github/stephengold/jsr223/RunScript.java:83-96 | fewer than two arguments means usage; otherwise engine name, script path and class-list paths rebuild the argument list exactly, with two fewer class lists than arguments |
| `Launcher.ParseArgumentsOfInvocation` | java-apps/src/main/java/com/github/stephengold/jsr223/RunScript.java:94-96 | reading the command line of an invocation gives that invocation back |
| `Launcher.ImportAll` | java-apps/src/main/java/com/github/stephengold/jsr223/RunScript.java:234-239 | when the import of a class list goes through, the snippets evaluated are exactly the list's snippets in line order; when it stops, the cause is an import exception or a rejected snippet |
| `Launcher.ImportAllSucceedsIffClean` | java-apps/src/main/java/com/github/stephengold/jsr223/RunScript.java:202-213 | importing a list goes through exactly when every class imports without exception and the engine accepts its snippet |
| `Launcher.ImportAllRejectedLast` | java-apps/src/main/java/com/github/stephengold/jsr223/RunScript.java:208-213 | an import stopped by a ScriptException ends with the rejected snippet as the last thing evaluated |
| `Launcher.ImportAllEvaluatesPrefix` | java-apps/src/main/java/com/github/stephengold/jsr223/RunScript.java:234-239 | what an import evaluates is always a prefix of the list's snippets in line order, and all but possibly the last were accepted |
| `Launcher.ImportAllAppend` | java-apps/src/main/java/com/github/stephengold/jsr223/RunScript.java:111-113 | importing two lists in a row is importing the first and, only if that went through, then the second |
| `Launcher.ImportAllStopsAtFirstFailure` | java-apps/src/main/java/com/github/stephengold/jsr223/RunScript.java:202-213 | at the first class that fails, evaluation consists of the snippets of the classes before it plus its own snippet if that was the rejected one; later classes are never imported; the import ends with that class's own exception, or with the rejection of its own snippet |
| `Launcher.ImportFiles` | java-apps/src/main/java/com/github/stephengold/jsr223/RunScript.java:221-231 | imports that go through opened every class list; a missing-class-list ending names a listed path that is not readable |
| `Launcher.ImportFilesConcatenates` | java-apps/src/main/java/com/github/stephengold/jsr223/RunScript.java:111-113 | with every class list readable, importing them file by file equals importing all their lines, file order then line order, as one list |
| `Launcher.ImportFilesAppend` | java-apps/src/main/java/com/github/stephengold/jsr223/RunScript.java:111-113 | importing two runs of class lists in a row is importing the first and, only if that went through, then the second; a failure in the first ends the import before any later list is opened |
| `Launcher.ImportFilesStopsAtFirstMissing` | java-apps/src/main/java/com/github/stephengold/jsr223/RunScript.java:221-231 | the first class list that cannot be opened ends the import with that path, after every earlier list was imported in full; later lists are never opened |
| `Launcher.ImportFilesSilent` | java-apps/src/main/java/com/github/stephengold/jsr223/RunScript.java:175-203 | under lua54 or a factory name without a case, importing the class lists evaluates nothing |
| `Launcher.RunScript` | java-apps/src/main/java/com/github/stephengold/jsr223/RunScript.java:81-116 | usage exactly for fewer than two arguments, with nothing evaluated; an unknown engine ends at once with nothing evaluated; the script, if evaluated, is args[1] and is the last request; the exit status is 0 exactly for usage, unknown engine, or a completed script; a rejected script was readable and its text rejected by the engine, a completed one was readable and its text accepted |
| `Launcher.ExitCode` | java-apps/src/main/java/com/github/stephengold/jsr223/RunScript.java:91-141 | the exit status is 0 or 1, and 0 exactly for usage, an engine not found, or a completed script (the exits of the import path, at lines 212 and 229, are also status 1) |
| `Launcher.UsageConsultsNothing` | java-apps/src/main/java/com/github/stephengold/jsr223/RunScript.java:84-92 | with fewer than two arguments the run is the same whatever the engines, files and evaluator: usage, nothing evaluated |
| `Launcher.EngineNotFoundOpensNoFile` | java-apps/src/main/java/com/github/stephengold/jsr223/RunScript.java:99-109 | when the engine is not found the run does not depend on any file or on the evaluator, and exits with status 0 |
| `Launcher.ImportsPrecedeScript` | java-apps/src/main/java/com/github/stephengold/jsr223/RunScript.java:111-115 | if the script is evaluated, every class list was readable, every class imported cleanly, and the run is all their snippets in file and line order followed by the script |
| `Launcher.ScriptRunsAfterCleanImports` | java-apps/src/main/java/com/github/stephengold/jsr223/RunScript.java:111-142 | once the engine is found, every class list is readable, every class imports cleanly and the script file exists, the run is all the snippets in file and line order followed by the script, ending rejected exactly when the engine rejects the script text and completed otherwise |
| `Launcher.ScriptMissingAfterCleanImports` | java-apps/src/main/java/com/github/stephengold/jsr223/RunScript.java:125-134 | once the engine is found, every class list is readable and every class imports cleanly, a missing script ends the run with that path not found, after all the snippets in file and line order |
| `Launcher.ScriptNotFoundAfterImports` | java-apps/src/main/java/com/github/stephengold/jsr223/RunScript.java:125-134 | a missing script (args[1]) is reported only after every class list was read and every snippet evaluated |
| `Launcher.ClassListNotFoundAtFirstMissing` | java-apps/src/main/java/com/github/stephengold/jsr223/RunScript.java:111-113 | when every class of the lists before the first unreadable one imports cleanly, the run is their snippets in order and ends with that path not found and exit status 1 |
| `Launcher.ImportFailureEndsRun` | java-apps/src/main/java/com/github/stephengold/jsr223/RunScript.java:202-213 | the first class that fails to import ends the run, whatever lists follow: the snippets of the classes before it, plus its own if that was rejected, then that class's exception or the rejection of its snippet |
| `Launcher.UnknownFactoryNeverClean` | java-apps/src/main/java/com/github/stephengold/jsr223/RunScript.java:202-203 | under a factory name without a case in the switch no class imports cleanly |
| `Launcher.UnknownFactoryRunsOnlyWithoutClasses` | java-apps/src/main/java/com/github/stephengold/jsr223/RunScript.java:99-115 | an engine found under a name the switch does not know evaluates the script only if every class list is empty |
| `Launcher.NoSnippetsWithoutImportSyntax` | java-apps/src/main/java/com/github/stephengold/jsr223/RunScript.java:175-203 | under lua54 or an unknown factory name the engine is never asked to evaluate an import snippet, only possibly the script |

## Left out

- `printFactories` and every message printed to the console: only the outcome of a run (its `Status`) is modelled, not the text printed.
- The `ScriptEngineManager` lookup is the set `Host.engines`. Which factories exist, and their aliases, are outside the program.
- Script evaluation is the set `Host.rejected`: a text is accepted or rejected whatever was evaluated before it. The engine's state, and what the script itself does (including a script that exits the JVM), are not modelled. `Completed` means `eval` of the script returned normally.
- File I/O is the map `Host.files` from readable paths to decoded text. The charset decoding is not modelled: the class lists are read as UTF-8 and the script in the platform default charset. Also not modelled: I/O errors that `Scanner` swallows, and a directory path that cannot be opened (it counts as absent).
- Strings.UpperAscii: upper-cases only ASCII letters; the same restriction carries over to `Strings.FirstToUpper`, below.
- Strings.FirstToUpper: upper-cases only ASCII letters. The source uses `toUpperCase(Locale.ROOT)` on the first UTF-16 code unit, which can also map non-ASCII letters and can lengthen the text (`ß` becomes `SS`). Dafny `char` is a Unicode scalar value rather than a UTF-16 code unit.
- The two ways a name without a `.` fails are one outcome here. With assertions enabled it is the `AssertionError` at line 170; without them, the `StringIndexOutOfBoundsException` from `substring(0, -1)`. Both are `NoPackage`, and both escape `main`.
- Exit status 1 for an exception escaping `main` is the JVM's convention; the source does not set it.
- The `Hello*` sample programs in Java, Kotlin, Scala, JavaScript, Python and Ruby. They only configure and drive the external native physics engine and the graphics framework: engine calls, keyboard and camera handling, floating-point vector arithmetic.
- The contact-callback flag of `HelloSensor`. It is set by native callbacks on engine worker threads through a `volatile` field, and the model has no threads.
- The Gradle build scripts: they are build configuration, not program logic.

=== FILE: class_names.dfy ===
/**
 * Splitting a fully-qualified Java class name at its last '.' into a
 * package name and a simple name.
 */
module ClassNames {
  import opened Wrappers
  import opened Strings

  datatype QualifiedName = QualifiedName(packageName: string, simpleName: string)

  /** The fully-qualified name the two parts stand for. */
  function FullName(q: QualifiedName): string {
    q.packageName + "." + q.simpleName
  }

  /**
   * The split at the last '.'. A name without any '.' has no package part;
   * the launcher treats that as a failure.
   */
  function Split(fullName: string): (r: Option<QualifiedName>)
    ensures r.None? <==> '.' !in fullName
    ensures r.Some? ==> FullName(r.value) == fullName && '.' !in r.value.simpleName
  {
    var lastDot := LastIndexOf(fullName, '.');
    if lastDot < 0 then None
    else
      var q := QualifiedName(fullName[..lastDot], fullName[lastDot + 1..]);
      assert fullName == fullName[..lastDot] + [fullName[lastDot]] + fullName[lastDot + 1..];
      assert forall j :: 0 <= j < |q.simpleName| ==> q.simpleName[j] == fullName[lastDot + 1 + j];
      Some(q)
  }

  /** Joining a package and a dot-free simple name and splitting again gives the parts back. */
  lemma SplitFullName(q: QualifiedName)
    requires '.' !in q.simpleName
    ensures Split(FullName(q)) == Some(q)
  {
    var s := FullName(q);
    var k := |q.packageName|;
    assert s[k] == '.';
    var lastDot := LastIndexOf(s, '.');
    assert lastDot == k;
    assert s[..k] == q.packageName;
    assert s[k + 1..] == q.simpleName;
  }
}

=== FILE: dialects.dfy ===
/**
 * The per-dialect import snippets: for each scripting dialect the launcher
 * knows, the code that makes a Java class visible to scripts, and the two
 * cases in which nothing is imported.
 */
module Dialects {
  import opened Wrappers
  import opened Strings
  import opened ClassNames

  /** The scripting dialects the import switch recognises. */
  datatype Dialect = JRuby | Jython | Lua54 | Luaj | Nashorn

  /** The script-engine factory name that selects each dialect. */
  function FactoryName(d: Dialect): string {
    match d
    case JRuby => "jruby"
    case Jython => "jython"
    case Lua54 => "lua54"
    case Luaj => "luaj"
    case Nashorn => "nashorn"
  }

  /** The dialect a factory name selects; names are matched exactly, case included. */
  function DialectNamed(factoryName: string): (r: Option<Dialect>)
    ensures r.Some? ==> FactoryName(r.value) == factoryName
    ensures r.None? ==> forall d :: FactoryName(d) != factoryName
  {
    if factoryName == "jruby" then Some(JRuby)
    else if factoryName == "jython" then Some(Jython)
    else if factoryName == "lua54" then Some(Lua54)
    else if factoryName == "luaj" then Some(Luaj)
    else if factoryName == "nashorn" then Some(Nashorn)
    else None
  }

  /** Every dialect is selected by its own factory name. */
  lemma DialectNamedFactoryName(d: Dialect)
    ensures DialectNamed(FactoryName(d)) == Some(d)
  {
  }

  /** Why importing a class failed; both are uncaught exceptions in the launcher. */
  datatype ImportError =
    | NoPackage(fullName: string)        // no '.' in the class name
    | UnknownFactory(factoryName: string) // the import switch has no case for the name

  /** What importing one class amounts to. */
  datatype Import =
    | Emit(code: string)   // this snippet is handed to the engine
    | Skip                 // nothing is evaluated for this class
    | Fail(error: ImportError)

  /** The class name has a package part and names a class the dialect leaves alone. */
  predicate Skipped(factoryName: string, fullName: string) {
    match Split(fullName)
    case None => false
    case Some(q) => factoryName == "lua54" || (factoryName == "jruby" && q.simpleName == "Mutex")
  }

  /**
   * The import of `fullName` for the engine selected by `factoryName`. The
   * name is split before the dialect is looked at, so a name without a
   * package fails whatever the engine.
   */
  function ImportClass(factoryName: string, fullName: string): (r: Import)
    ensures r.Emit? ==> '.' in fullName && DialectNamed(factoryName).Some? && factoryName != "lua54"
  {
    match Split(fullName)
    case None => Fail(NoPackage(fullName))
    case Some(q) =>
      match DialectNamed(factoryName)
      case None => Fail(UnknownFactory(factoryName))
      case Some(JRuby) =>
        if q.simpleName == "Mutex" then Skip
        else Emit("java_import Java::" + FirstToUpper(fullName))
      case Some(Jython) => Emit("from " + q.packageName + " import " + q.simpleName)
      case Some(Lua54) => Skip
      case Some(Luaj) => Emit(q.simpleName + " = luajava.bindClass(\"" + fullName + "\")")
      case Some(Nashorn) => Emit("var " + q.simpleName + " = Java.type('" + fullName + "');")
  }

  /**
   * The three outcomes of an import and when each happens: a name without a
   * package fails first, then a factory name without a case, and a class is
   * skipped exactly for Lua 5.4 and for JRuby's `Mutex`.
   */
  lemma ImportClassOutcomes(factoryName: string, fullName: string)
    ensures '.' !in fullName ==> ImportClass(factoryName, fullName) == Fail(NoPackage(fullName))
    ensures '.' in fullName && DialectNamed(factoryName).None? ==>
      ImportClass(factoryName, fullName) == Fail(UnknownFactory(factoryName))
    ensures ImportClass(factoryName, fullName).Fail? <==> '.' !in fullName || DialectNamed(factoryName).None?
    ensures ImportClass(factoryName, fullName).Skip? <==> Skipped(factoryName, fullName)
  {
  }

  /** Jython imports the simple name from the package. */
  lemma JythonSnippet(packageName: string, simpleName: string)
    requires '.' !in simpleName
    ensures ImportClass("jython", packageName + "." + simpleName)
         == Emit("from " + packageName + " import " + simpleName)
  {
    SplitFullName(QualifiedName(packageName, simpleName));
  }

  /** LuaJ binds the simple name to the class looked up by its full name. */
  lemma LuajSnippet(packageName: string, simpleName: string)
    requires '.' !in simpleName
    ensures ImportClass("luaj", packageName + "." + simpleName)
         == Emit(simpleName + " = luajava.bindClass(\"" + packageName + "." + simpleName + "\")")
  {
    SplitFullName(QualifiedName(packageName, simpleName));
  }

  /** Nashorn declares a variable named by the simple name holding the Java type. */
  lemma NashornSnippet(packageName: string, simpleName: string)
    requires '.' !in simpleName
    ensures ImportClass("nashorn", packageName + "." + simpleName)
         == Emit("var " + simpleName + " = Java.type('" + packageName + "." + simpleName + "');")
  {
    SplitFullName(QualifiedName(packageName, simpleName));
  }

  /**
   * JRuby imports the full name with its first character upper-cased, except
   * a class whose simple name is `Mutex`, which is not imported at all.
   */
  lemma JRubySnippet(packageName: string, simpleName: string)
    requires '.' !in simpleName
    ensures simpleName != "Mutex" ==>
      ImportClass("jruby", packageName + "." + simpleName)
        == Emit("java_import Java::" + FirstToUpper(packageName + "." + simpleName))
    ensures simpleName == "Mutex" ==> ImportClass("jruby", packageName + "." + simpleName) == Skip
  {
    SplitFullName(QualifiedName(packageName, simpleName));
  }

  /** Lua 5.4 never evaluates an import, for any class name that has a package. */
  lemma Lua54Skips(fullName: string)
    requires '.' in fullName
    ensures ImportClass("lua54", fullName) == Skip
  {
  }
}

=== FILE: launcher.dfy ===
/**
 * The launcher's top level: argument handling, the import of every class
 * named in the class-list files, and the evaluation of the script after
 * all of them. The script-engine manager, the file system and the engine's
 * evaluator are described by a `Host` value; what the launcher asks the
 * engine to evaluate is returned as a trace.
 */
module Launcher {
  import opened Wrappers
  import opened Dialects
  import opened LineScanner

  /** The command line, once it has the two mandatory arguments. */
  datatype Invocation = Invocation(factoryName: string, scriptPath: string, classListPaths: seq<string>)

  /** The command line an invocation is read from. */
  function Arguments(inv: Invocation): seq<string> {
    [inv.factoryName, inv.scriptPath] + inv.classListPaths
  }

  /**
   * Reads the command line: fewer than two arguments is a request for the
   * usage message; otherwise engine name, script path, then class lists.
   */
  function ParseArguments(args: seq<string>): (r: Option<Invocation>)
    ensures r.None? <==> |args| < 2
    ensures r.Some? ==> Arguments(r.value) == args && |r.value.classListPaths| == |args| - 2
  {
    if |args| < 2 then None
    else
      assert args == [args[0], args[1]] + args[2..];
      Some(Invocation(args[0], args[1], args[2..]))
  }

  /** Reading back the command line of an invocation gives the invocation. */
  lemma ParseArgumentsOfInvocation(inv: Invocation)
    ensures ParseArguments(Arguments(inv)) == Some(inv)
  {
  }

  /**
   * What the launcher cannot see: the factory names the script-engine
   * manager resolves, the readable files and their text, and the texts the
   * engine refuses to evaluate.
   */
  datatype Host = Host(engines: set<string>, files: map<string, string>, rejected: set<string>)

  /** One request to the engine's evaluator. */
  datatype Evaluation = Snippet(code: string) | Script(path: string)

  /** How a run ends. */
  datatype Status =
    | Usage                             // fewer than two arguments
    | EngineNotFound(factoryName: string)
    | ClassListNotFound(path: string)
    | ImportFailed(error: ImportError)  // an exception escapes the launcher
    | SnippetRejected(code: string)
    | ScriptNotFound(path: string)
    | ScriptRejected(path: string)
    | Completed

  /** The process exit status each ending produces. */
  function ExitCode(s: Status): (code: int)
    ensures code == 0 || code == 1
    ensures code == 0 <==> s.Usage? || s.EngineNotFound? || s.Completed?
  {
    match s
    case Usage => 0
    case EngineNotFound(_) => 0
    case Completed => 0
    case _ => 1
  }

  /** A whole run: what was handed to the evaluator, in order, and how it ended. */
  datatype Run = Run(evaluated: seq<Evaluation>, status: Status)

  /** The per-class import the launcher performs once started with `factoryName`. */
  function Importer(factoryName: string): string -> Import {
    fullName => ImportClass(factoryName, fullName)
  }

  /** The class imports without error and the engine accepts its snippet, if any. */
  predicate Clean(importer: string -> Import, fullName: string, rejected: set<string>) {
    match importer(fullName)
    case Fail(_) => false
    case Skip => true
    case Emit(code) => code !in rejected
  }

  /** The snippet of one class, if it has one. */
  function SnippetOf(importer: string -> Import, fullName: string): (snippet: seq<string>) {
    match importer(fullName)
    case Emit(code) => [code]
    case _ => []
  }

  /** Reference: the snippets for `names`, in order, ignoring failures. */
  function Snippets(importer: string -> Import, names: seq<string>): (snippets: seq<string>)
    decreases |names|
  {
    if |names| == 0 then [] else SnippetOf(importer, names[0]) + Snippets(importer, names[1..])
  }

  /** Lua 5.4 and factory names without a case produce no snippet for any class. */
  lemma {:induction false} SnippetsSilent(factoryName: string, names: seq<string>)
    ensures DialectNamed(factoryName).None? || factoryName == "lua54" ==> Snippets(Importer(factoryName), names) == []
    decreases |names|
  {
    if |names| > 0 {
      ImportClassOutcomes(factoryName, names[0]);
      SnippetsSilent(factoryName, names[1..]);
    }
  }

  /** Snippets evaluated so far, and the ending if an import stopped the run. */
  datatype Imported = Imported(evaluated: seq<string>, failure: Option<Status>)

  /**
   * Imports the classes one by one, in order, stopping at the first one that
   * fails to import or whose snippet the engine rejects.
   */
  function ImportAll(importer: string -> Import, names: seq<string>, rejected: set<string>): (r: Imported)
    ensures r.failure.None? ==> r.evaluated == Snippets(importer, names)
    ensures r.failure.Some? ==> r.failure.value.ImportFailed? || r.failure.value.SnippetRejected?
    decreases |names|
  {
    if |names| == 0 then Imported([], None)
    else
      match importer(names[0])
      case Fail(e) => Imported([], Some(ImportFailed(e)))
      case Skip => ImportAll(importer, names[1..], rejected)
      case Emit(code) =>
        if code in rejected then Imported([code], Some(SnippetRejected(code)))
        else
          var rest := ImportAll(importer, names[1..], rejected);
          Imported([code] + rest.evaluated, rest.failure)
  }

  /** The import goes through exactly when every class is clean. */
  lemma {:induction false} ImportAllSucceedsIffClean(importer: string -> Import, names: seq<string>, rejected: set<string>)
    ensures ImportAll(importer, names, rejected).failure.None?
        <==> forall i :: 0 <= i < |names| ==> Clean(importer, names[i], rejected)
    decreases |names|
  {
    if |names| > 0 {
      ImportAllSucceedsIffClean(importer, names[1..], rejected);
      assert forall i :: 1 <= i < |names| ==> names[i] == names[1..][i - 1];
    }
  }

  /** An import stopped by the engine ends with the rejected snippet. */
  lemma {:induction false} ImportAllRejectedLast(importer: string -> Import, names: seq<string>, rejected: set<string>)
    ensures var r := ImportAll(importer, names, rejected);
      r.failure.Some? && r.failure.value.SnippetRejected? ==>
        |r.evaluated| > 0 && r.evaluated[|r.evaluated| - 1] == r.failure.value.code && r.failure.value.code in rejected
    decreases |names|
  {
    if |names| > 0 {
      ImportAllRejectedLast(importer, names[1..], rejected);
    }
  }

  /**
   * Only snippets of the listed classes are evaluated, in list order: what an
   * import evaluates is always a prefix of the reference snippet sequence,
   * and every snippet but a rejected last one was accepted.
   */
  lemma {:induction false} ImportAllEvaluatesPrefix(importer: string -> Import, names: seq<string>, rejected: set<string>)
    ensures var r := ImportAll(importer, names, rejected);
      && r.evaluated <= Snippets(importer, names)
      && forall i :: 0 <= i < |r.evaluated| - 1 ==> r.evaluated[i] !in rejected
    decreases |names|
  {
    if |names| > 0 {
      ImportAllEvaluatesPrefix(importer, names[1..], rejected);
    }
  }

  /**
   * Importing two lists in a row is importing the first and, only if that
   * went through, then the second.
   */
  lemma {:induction false} ImportAllAppend(importer: string -> Import, a: seq<string>, b: seq<string>, rejected: set<string>)
    ensures var first := ImportAll(importer, a, rejected);
      ImportAll(importer, a + b, rejected)
        == if first.failure.Some? then first
           else Imported(first.evaluated + ImportAll(importer, b, rejected).evaluated,
                         ImportAll(importer, b, rejected).failure)
    decreases |a|
  {
    if |a| > 0 {
      assert (a + b)[0] == a[0];
      assert (a + b)[1..] == a[1..] + b;
      ImportAllAppend(importer, a[1..], b, rejected);
      match importer(a[0])
      case Fail(_) =>
      case Skip =>
      case Emit(code) =>
        if code !in rejected {
          var rest := ImportAll(importer, a[1..], rejected);
          var tail := ImportAll(importer, b, rejected);
          assert [code] + (rest.evaluated + tail.evaluated) == ([code] + rest.evaluated) + tail.evaluated;
        }
    } else {
      assert a + b == b;
      assert [] + ImportAll(importer, b, rejected).evaluated == ImportAll(importer, b, rejected).evaluated;
    }
  }

  /**
   * The first class that is not clean ends the import: what was evaluated is
   * the snippets of the classes before it, plus its own snippet if that was
   * the one rejected; the classes after it are never looked at. The run
   * ends with that class's own exception, or with the engine's rejection of
   * its snippet.
   */
  lemma ImportAllStopsAtFirstFailure(importer: string -> Import, names: seq<string>, rejected: set<string>, k: nat)
    requires k < |names|
    requires forall i :: 0 <= i < k ==> Clean(importer, names[i], rejected)
    requires !Clean(importer, names[k], rejected)
    ensures var r := ImportAll(importer, names, rejected);
      && r.failure.Some?
      && r.evaluated == Snippets(importer, names[..k]) + SnippetOf(importer, names[k])
    ensures importer(names[k]).Fail? ==>
      ImportAll(importer, names, rejected).failure == Some(ImportFailed(importer(names[k]).error))
    ensures importer(names[k]).Emit? ==>
      ImportAll(importer, names, rejected).failure == Some(SnippetRejected(importer(names[k]).code))
  {
    var before := names[..k];
    var rest := [names[k]] + names[k + 1..];
    assert names == before + rest;
    assert forall i :: 0 <= i < |before| ==> before[i] == names[i];
    ImportAllSucceedsIffClean(importer, before, rejected);
    ImportAllAppend(importer, before, rest, rejected);
    assert rest[0] == names[k];
  }

  /** The class names of all the class lists, file after file, line after line. */
  function AllClassNames(paths: seq<string>, files: map<string, string>): (names: seq<string>)
    requires forall i :: 0 <= i < |paths| ==> paths[i] in files
    decreases |paths|
  {
    if |paths| == 0 then [] else Lines(files[paths[0]]) + AllClassNames(paths[1..], files)
  }

  /**
   * Imports the classes of each class-list file in turn, stopping at a
   * missing file or a failed import.
   */
  function ImportFiles(factoryName: string, paths: seq<string>, host: Host): (r: Imported)
    ensures r.failure.None? ==> forall i :: 0 <= i < |paths| ==> paths[i] in host.files
    ensures r.failure.Some? && r.failure.value.ClassListNotFound? ==>
      r.failure.value.path in paths && r.failure.value.path !in host.files
    ensures r.failure.Some? ==>
      r.failure.value.ClassListNotFound? || r.failure.value.ImportFailed? || r.failure.value.SnippetRejected?
    decreases |paths|
  {
    if |paths| == 0 then Imported([], None)
    else if paths[0] !in host.files then Imported([], Some(ClassListNotFound(paths[0])))
    else
      var first := ImportAll(Importer(factoryName), Lines(host.files[paths[0]]), host.rejected);
      if first.failure.Some? then first
      else
        var rest := ImportFiles(factoryName, paths[1..], host);
        Imported(first.evaluated + rest.evaluated, rest.failure)
  }

  /**
   * When every class list exists, importing them file by file is importing
   * their concatenated lines as one list.
   */
  lemma {:induction false} ImportFilesConcatenates(factoryName: string, paths: seq<string>, host: Host)
    requires forall i :: 0 <= i < |paths| ==> paths[i] in host.files
    ensures ImportFiles(factoryName, paths, host)
         == ImportAll(Importer(factoryName), AllClassNames(paths, host.files), host.rejected)
    decreases |paths|
  {
    if |paths| > 0 {
      ImportFilesConcatenates(factoryName, paths[1..], host);
      ImportAllAppend(Importer(factoryName), Lines(host.files[paths[0]]), AllClassNames(paths[1..], host.files), host.rejected);
    }
  }

  /**
   * Importing two runs of class lists in a row is importing the first and,
   * only if that went through, then the second: a failure in the first
   * ends the import before any list of the second is opened.
   */
  /** The import `first`, followed by the import `second` only if `first` went through. */
  function Then(first: Imported, second: Imported): Imported {
    if first.failure.Some? then first else Imported(first.evaluated + second.evaluated, second.failure)
  }

  /** Sequencing imports is associative. */
  lemma SequenceStep(head: Imported, mid: Imported, last: Imported)
    ensures Then(head, Then(mid, last)) == Then(Then(head, mid), last)
  {
    if head.failure.None? && mid.failure.None? {
      assert head.evaluated + (mid.evaluated + last.evaluated) == (head.evaluated + mid.evaluated) + last.evaluated;
    }
  }

  /** Importing a list of class lists that starts with `path`, one step. */
  lemma ImportFilesCons(factoryName: string, path: string, rest: seq<string>, host: Host)
    ensures ImportFiles(factoryName, [path] + rest, host)
         == if path !in host.files then Imported([], Some(ClassListNotFound(path)))
            else
              var first := ImportAll(Importer(factoryName), Lines(host.files[path]), host.rejected);
              if first.failure.Some? then first
              else Imported(first.evaluated + ImportFiles(factoryName, rest, host).evaluated,
                            ImportFiles(factoryName, rest, host).failure)
  {
    var paths := [path] + rest;
    assert paths[0] == path;
    assert paths[1..] == rest;
  }

  /**
   * Importing two runs of class lists in a row is importing the first and,
   * only if that went through, then the second: a failure in the first
   * ends the import before any list of the second is opened.
   */
  lemma {:induction false} ImportFilesAppend(factoryName: string, a: seq<string>, b: seq<string>, host: Host)
    ensures ImportFiles(factoryName, a + b, host) == Then(ImportFiles(factoryName, a, host), ImportFiles(factoryName, b, host))
    decreases |a|
  {
    if |a| == 0 {
      assert a + b == b;
    } else {
      var tail := a[1..];
      assert a == [a[0]] + tail;
      assert a + b == [a[0]] + (tail + b);
      ImportFilesCons(factoryName, a[0], tail, host);
      ImportFilesCons(factoryName, a[0], tail + b, host);
      ImportFilesAppend(factoryName, tail, b, host);
      if a[0] in host.files {
        SequenceStep(ImportAll(Importer(factoryName), Lines(host.files[a[0]]), host.rejected),
                     ImportFiles(factoryName, tail, host), ImportFiles(factoryName, b, host));
      }
    }
  }

  /**
   * The first class list that cannot be opened ends the run, after every
   * list before it was imported in full.
   */
  lemma {:induction false} ImportFilesStopsAtFirstMissing(factoryName: string, paths: seq<string>, host: Host, j: nat)
    requires j < |paths| && paths[j] !in host.files
    requires forall i :: 0 <= i < j ==> paths[i] in host.files
    requires ImportFiles(factoryName, paths[..j], host).failure.None?
    ensures ImportFiles(factoryName, paths, host)
         == Imported(ImportFiles(factoryName, paths[..j], host).evaluated, Some(ClassListNotFound(paths[j])))
    decreases j
  {
    if j > 0 {
      var before := paths[..j];
      assert before[0] == paths[0];
      assert before[1..] == paths[1..][..j - 1];
      ImportFilesStopsAtFirstMissing(factoryName, paths[1..], host, j - 1);
    }
  }

  /** Under Lua 5.4, or a factory name without a case, importing the class lists evaluates nothing. */
  lemma {:induction false} ImportFilesSilent(factoryName: string, paths: seq<string>, host: Host)
    requires DialectNamed(factoryName).None? || factoryName == "lua54"
    ensures ImportFiles(factoryName, paths, host).evaluated == []
    decreases |paths|
  {
    if |paths| > 0 && paths[0] in host.files {
      var names := Lines(host.files[paths[0]]);
      SnippetsSilent(factoryName, names);
      ImportAllEvaluatesPrefix(Importer(factoryName), names, host.rejected);
      ImportFilesSilent(factoryName, paths[1..], host);
    }
  }

  /** The evaluator requests for a sequence of snippets. */
  function AsSnippets(codes: seq<string>): (r: seq<Evaluation>)
    ensures |r| == |codes|
    ensures forall i :: 0 <= i < |r| ==> r[i] == Snippet(codes[i])
  {
    seq(|codes|, i requires 0 <= i < |codes| => Snippet(codes[i]))
  }

  /** The script was handed to the evaluator: it is the last request of the run. */
  predicate ScriptEvaluated(r: Run) {
    |r.evaluated| > 0 && r.evaluated[|r.evaluated| - 1].Script?
  }

  /** The whole launcher, from command line to outcome. */
  function RunScript(args: seq<string>, host: Host): (r: Run)
    ensures r.status == Usage <==> |args| < 2
    ensures |args| < 2 ==> r.evaluated == []
    ensures |args| >= 2 && args[0] !in host.engines ==> r == Run([], EngineNotFound(args[0]))
    ensures forall i :: 0 <= i < |r.evaluated| && r.evaluated[i].Script? ==>
      i == |r.evaluated| - 1 && r.evaluated[i].path == args[1]
    ensures ScriptEvaluated(r) <==> r.status.Completed? || r.status.ScriptRejected?
    ensures ExitCode(r.status) == 0 <==> |args| < 2 || args[0] !in host.engines || r.status.Completed?
    ensures r.status.ScriptRejected? ==> |args| >= 2 && args[1] in host.files && host.files[args[1]] in host.rejected
    ensures r.status.Completed? ==> |args| >= 2 && args[1] in host.files && host.files[args[1]] !in host.rejected
  {
    match ParseArguments(args)
    case None => Run([], Usage)
    case Some(inv) =>
      if inv.factoryName !in host.engines then Run([], EngineNotFound(inv.factoryName))
      else
        var imported := ImportFiles(inv.factoryName, inv.classListPaths, host);
        var snippets := AsSnippets(imported.evaluated);
        if imported.failure.Some? then Run(snippets, imported.failure.value)
        else if inv.scriptPath !in host.files then Run(snippets, ScriptNotFound(inv.scriptPath))
        else if host.files[inv.scriptPath] in host.rejected then
          Run(snippets + [Script(inv.scriptPath)], ScriptRejected(inv.scriptPath))
        else Run(snippets + [Script(inv.scriptPath)], Completed)
  }

  /**
   * With fewer than two arguments the outcome does not depend on the host:
   * no engine is looked up by name, no file is opened, nothing is evaluated.
   */
  lemma UsageConsultsNothing(args: seq<string>, host: Host, other: Host)
    requires |args| < 2
    ensures RunScript(args, host) == RunScript(args, other) == Run([], Usage)
  {
  }

  /** When the engine is not found, no file is opened and nothing is evaluated. */
  lemma EngineNotFoundOpensNoFile(args: seq<string>, host: Host, other: Host)
    requires |args| >= 2 && args[0] !in host.engines && other.engines == host.engines
    ensures RunScript(args, host) == RunScript(args, other)
    ensures ExitCode(RunScript(args, host).status) == 0
  {
  }

  /**
   * The script is evaluated only after every class of every class list, in
   * file order and line order, was imported and accepted.
   */
  lemma ImportsPrecedeScript(args: seq<string>, host: Host)
    requires ScriptEvaluated(RunScript(args, host))
    ensures |args| >= 2 && args[0] in host.engines
    ensures forall i :: 2 <= i < |args| ==> args[i] in host.files
    ensures var names := AllClassNames(args[2..], host.files);
      && (forall i :: 0 <= i < |names| ==> Clean(Importer(args[0]), names[i], host.rejected))
      && RunScript(args, host).evaluated == AsSnippets(Snippets(Importer(args[0]), names)) + [Script(args[1])]
  {
    var paths := args[2..];
    assert forall i :: 2 <= i < |args| ==> args[i] == paths[i - 2];
    ImportFilesConcatenates(args[0], paths, host);
    ImportAllSucceedsIffClean(Importer(args[0]), AllClassNames(paths, host.files), host.rejected);
  }

  /**
   * The converse: once the engine is found, every class list is readable,
   * every class imports cleanly and the script file exists, the script is
   * evaluated after all the snippets, and the run ends with the engine's
   * verdict on the script's text.
   */
  lemma ScriptRunsAfterCleanImports(args: seq<string>, host: Host)
    requires |args| >= 2 && args[0] in host.engines
    requires forall i :: 2 <= i < |args| ==> args[i] in host.files
    requires var names := AllClassNames(args[2..], host.files);
      forall i :: 0 <= i < |names| ==> Clean(Importer(args[0]), names[i], host.rejected)
    requires args[1] in host.files
    ensures RunScript(args, host)
         == Run(AsSnippets(Snippets(Importer(args[0]), AllClassNames(args[2..], host.files))) + [Script(args[1])],
                if host.files[args[1]] in host.rejected then ScriptRejected(args[1]) else Completed)
  {
    var paths := args[2..];
    assert forall i :: 2 <= i < |args| ==> args[i] == paths[i - 2];
    ImportFilesConcatenates(args[0], paths, host);
    ImportAllSucceedsIffClean(Importer(args[0]), AllClassNames(paths, host.files), host.rejected);
  }

  /**
   * Once the engine is found, every class list is readable and every class
   * imports cleanly, a missing script ends the run after all the snippets.
   */
  lemma ScriptMissingAfterCleanImports(args: seq<string>, host: Host)
    requires |args| >= 2 && args[0] in host.engines
    requires forall i :: 2 <= i < |args| ==> args[i] in host.files
    requires var names := AllClassNames(args[2..], host.files);
      forall i :: 0 <= i < |names| ==> Clean(Importer(args[0]), names[i], host.rejected)
    requires args[1] !in host.files
    ensures RunScript(args, host)
         == Run(AsSnippets(Snippets(Importer(args[0]), AllClassNames(args[2..], host.files))), ScriptNotFound(args[1]))
  {
    var paths := args[2..];
    assert forall i :: 2 <= i < |args| ==> args[i] == paths[i - 2];
    ImportFilesConcatenates(args[0], paths, host);
    ImportAllSucceedsIffClean(Importer(args[0]), AllClassNames(paths, host.files), host.rejected);
  }

  /**
   * The first class that fails to import ends the run, whatever follows it:
   * the engine has evaluated the snippets of the classes before it, plus its
   * own snippet if that was the one rejected, and the run ends with that
   * class's exception or with the rejection of its snippet.
   */
  lemma ImportFailureEndsRun(args: seq<string>, host: Host, j: nat, k: nat)
    requires |args| >= 2 && args[0] in host.engines
    requires 2 <= j <= |args|
    requires forall i :: 2 <= i < j ==> args[i] in host.files
    requires var names := AllClassNames(args[2..j], host.files);
      && k < |names|
      && (forall i :: 0 <= i < k ==> Clean(Importer(args[0]), names[i], host.rejected))
      && !Clean(Importer(args[0]), names[k], host.rejected)
    ensures var names := AllClassNames(args[2..j], host.files);
      RunScript(args, host).evaluated
        == AsSnippets(Snippets(Importer(args[0]), names[..k]) + SnippetOf(Importer(args[0]), names[k]))
    ensures var names := AllClassNames(args[2..j], host.files);
      Importer(args[0])(names[k]).Fail? ==>
        RunScript(args, host).status == ImportFailed(Importer(args[0])(names[k]).error)
    ensures var names := AllClassNames(args[2..j], host.files);
      Importer(args[0])(names[k]).Emit? ==>
        RunScript(args, host).status == SnippetRejected(Importer(args[0])(names[k]).code)
  {
    var names := AllClassNames(args[2..j], host.files);
    assert args[2..] == args[2..j] + args[j..];
    assert forall i :: 0 <= i < j - 2 ==> args[2..j][i] == args[i + 2];
    ImportFilesConcatenates(args[0], args[2..j], host);
    ImportAllStopsAtFirstFailure(Importer(args[0]), names, host.rejected, k);
    ImportFilesAppend(args[0], args[2..j], args[j..], host);
  }

  /** A missing script is reported only after all the imports went through. */
  lemma ScriptNotFoundAfterImports(args: seq<string>, host: Host)
    requires RunScript(args, host).status.ScriptNotFound?
    ensures |args| >= 2 && args[1] !in host.files
    ensures RunScript(args, host).status.path == args[1]
    ensures forall i :: 2 <= i < |args| ==> args[i] in host.files
    ensures RunScript(args, host).evaluated == AsSnippets(Snippets(Importer(args[0]), AllClassNames(args[2..], host.files)))
  {
    var paths := args[2..];
    assert forall i :: 2 <= i < |args| ==> args[i] == paths[i - 2];
    ImportFilesConcatenates(args[0], paths, host);
  }

  /**
   * The run ends at the first class list that cannot be opened, with exit
   * status 1, once every class of the lists before it was imported and
   * accepted.
   */
  lemma ClassListNotFoundAtFirstMissing(args: seq<string>, host: Host, j: nat)
    requires |args| >= 2 && args[0] in host.engines
    requires 2 <= j < |args| && args[j] !in host.files
    requires forall i :: 2 <= i < j ==> args[i] in host.files
    requires var names := AllClassNames(args[2..j], host.files);
      forall i :: 0 <= i < |names| ==> Clean(Importer(args[0]), names[i], host.rejected)
    ensures RunScript(args, host)
         == Run(AsSnippets(Snippets(Importer(args[0]), AllClassNames(args[2..j], host.files))), ClassListNotFound(args[j]))
    ensures ExitCode(RunScript(args, host).status) == 1
  {
    var paths := args[2..];
    assert paths[..j - 2] == args[2..j];
    assert forall i :: 0 <= i < j - 2 ==> paths[i] == args[i + 2];
    assert paths[j - 2] == args[j];
    ImportFilesConcatenates(args[0], args[2..j], host);
    ImportAllSucceedsIffClean(Importer(args[0]), AllClassNames(args[2..j], host.files), host.rejected);
    ImportFilesStopsAtFirstMissing(args[0], paths, host, j - 2);
  }

  /** No class imports cleanly under a factory name the import switch does not know. */
  lemma UnknownFactoryNeverClean(factoryName: string, fullName: string, rejected: set<string>)
    requires DialectNamed(factoryName).None?
    ensures !Clean(Importer(factoryName), fullName, rejected)
  {
  }

  /** All class lists together name no class exactly when each of them is empty of lines. */
  lemma {:induction false} AllClassNamesEmpty(paths: seq<string>, files: map<string, string>)
    requires forall i :: 0 <= i < |paths| ==> paths[i] in files
    ensures AllClassNames(paths, files) == [] <==> forall i :: 0 <= i < |paths| ==> files[paths[i]] == []
    decreases |paths|
  {
    if |paths| > 0 {
      AllClassNamesEmpty(paths[1..], files);
      assert forall i :: 1 <= i < |paths| ==> paths[i] == paths[1..][i - 1];
    }
  }

  /**
   * An engine found under a name the import switch does not know (an alias
   * such as "python", say) runs a script only when every class list is empty.
   */
  lemma UnknownFactoryRunsOnlyWithoutClasses(args: seq<string>, host: Host)
    requires |args| >= 2 && DialectNamed(args[0]).None?
    requires ScriptEvaluated(RunScript(args, host))
    ensures forall i :: 2 <= i < |args| ==> args[i] in host.files && host.files[args[i]] == []
  {
    ImportsPrecedeScript(args, host);
    var names := AllClassNames(args[2..], host.files);
    if |names| > 0 {
      UnknownFactoryNeverClean(args[0], names[0], host.rejected);
    }
    AllClassNamesEmpty(args[2..], host.files);
    assert forall i :: 2 <= i < |args| ==> args[i] == args[2..][i - 2];
  }

  /**
   * Under Lua 5.4, or under a factory name the import switch does not know,
   * the engine is never asked to evaluate an import snippet.
   */
  lemma NoSnippetsWithoutImportSyntax(args: seq<string>, host: Host)
    requires |args| >= 2 && (DialectNamed(args[0]).None? || args[0] == "lua54")
    ensures forall i :: 0 <= i < |RunScript(args, host).evaluated| ==> RunScript(args, host).evaluated[i].Script?
  {
    ImportFilesSilent(args[0], args[2..], host);
  }
}

=== FILE: line_scanner.dfy ===
/**
 * How a class-list file is cut into lines by `Scanner.hasNextLine` /
 * `nextLine`: a line ends at "\r\n" or at any single line separator, the
 * separator is not part of the line, and text after the last separator is
 * one more line only when it is not empty.
 */
module LineScanner {

  /** The characters `java.util.Scanner` treats as ending a line. */
  predicate IsLineSeparator(c: char) {
    c == '\n' || c == '\r' || c == '\U{0085}' || c == '\U{2028}' || c == '\U{2029}'
  }

  predicate NoSeparator(line: string) {
    forall i :: 0 <= i < |line| ==> !IsLineSeparator(line[i])
  }

  /** Index of the first line separator in `text`, or `|text|` when there is none. */
  function FirstSeparator(text: string): (k: nat)
    ensures k <= |text|
    ensures k < |text| ==> IsLineSeparator(text[k])
    decreases |text|
  {
    if |text| == 0 then 0
    else if IsLineSeparator(text[0]) then 0
    else 1 + FirstSeparator(text[1..])
  }

  /** No separator comes before the one FirstSeparator finds. */
  lemma {:induction false} FirstSeparatorIsFirst(text: string)
    ensures NoSeparator(text[..FirstSeparator(text)])
    decreases |text|
  {
    if |text| > 0 && !IsLineSeparator(text[0]) {
      FirstSeparatorIsFirst(text[1..]);
      var k := FirstSeparator(text);
      assert text[..k] == [text[0]] + text[1..][..k - 1];
    }
  }

  /** Where the line after the separator at `k` starts: "\r\n" is one separator. */
  function NextLineStart(text: string, k: nat): (next: nat)
    requires k < |text| && IsLineSeparator(text[k])
    ensures k < next <= |text|
  {
    if text[k] == '\r' && k + 1 < |text| && text[k + 1] == '\n' then k + 2 else k + 1
  }

  /** The lines a Scanner returns for `text`, in order. */
  function Lines(text: string): (lines: seq<string>)
    ensures |lines| <= |text|
    ensures |lines| == 0 <==> |text| == 0
    decreases |text|
  {
    if |text| == 0 then []
    else
      var k := FirstSeparator(text);
      if k == |text| then [text]
      else [text[..k]] + Lines(text[NextLineStart(text, k)..])
  }

  /** No line contains a separator, and only the empty text has no lines. */
  lemma {:induction false} LinesAreSeparatorFree(text: string)
    ensures forall i :: 0 <= i < |Lines(text)| ==> NoSeparator(Lines(text)[i])
    ensures |Lines(text)| == 0 <==> |text| == 0
    decreases |text|
  {
    if |text| > 0 {
      var k := FirstSeparator(text);
      FirstSeparatorIsFirst(text);
      if k < |text| {
        LinesAreSeparatorFree(text[NextLineStart(text, k)..]);
      }
    }
  }

  /** The conventions for ending a line that a class-list file may use. */
  datatype LineEnd = LF | CR | CRLF | NEL | LS | PS

  function Terminator(e: LineEnd): (t: string)
    ensures 0 < |t| && IsLineSeparator(t[0])
  {
    match e
    case LF => "\n"
    case CR => "\r"
    case CRLF => "\r\n"
    case NEL => "\U{0085}"
    case LS => "\U{2028}"
    case PS => "\U{2029}"
  }

  /** A file holding `lines`, each one followed by the same terminator. */
  function Terminated(lines: seq<string>, e: LineEnd): (text: string)
    decreases |lines|
  {
    if |lines| == 0 then [] else lines[0] + Terminator(e) + Terminated(lines[1..], e)
  }

  /** The first separator of a text is the first one after its separator-free prefix. */
  lemma FirstSeparatorAfter(line: string, tail: string)
    requires NoSeparator(line)
    requires |tail| > 0 && IsLineSeparator(tail[0])
    ensures FirstSeparator(line + tail) == |line|
  {
    var text := line + tail;
    var k := FirstSeparator(text);
    FirstSeparatorIsFirst(text);
    assert text[|line|] == tail[0];
    assert forall j :: 0 <= j < |line| ==> text[j] == line[j];
  }

  /**
   * The next line starts right after the terminator, unless the terminator
   * is CR and the rest starts with '\n' (which would make it CRLF).
   */
  lemma NextLineStartAfter(line: string, e: LineEnd, rest: string)
    requires e == CR ==> |rest| == 0 || rest[0] != '\n'
    ensures |line| < |line + Terminator(e) + rest|
    ensures IsLineSeparator((line + Terminator(e) + rest)[|line|])
    ensures NextLineStart(line + Terminator(e) + rest, |line|) == |line| + |Terminator(e)|
  {
  }

  /** A separator-free line followed by a terminator `t` is returned first, and reading resumes after `t`. */
  lemma LinesOfFirstLine(line: string, t: string, rest: string)
    requires NoSeparator(line)
    requires |t| > 0 && IsLineSeparator(t[0])
    requires NextLineStart(line + t + rest, |line|) == |line| + |t|
    ensures Lines(line + t + rest) == [line] + Lines(rest)
  {
    var text := line + t + rest;
    assert text == line + (t + rest);
    FirstSeparatorAfter(line, t + rest);
    LinesStep(text, |line|);
    assert text[..|line|] == line;
    assert text[|line| + |t|..] == rest;
  }

  /** Reading stops at the first separator and resumes after it. */
  lemma LinesStep(text: string, k: nat)
    requires k < |text| && FirstSeparator(text) == k
    ensures IsLineSeparator(text[k])
    ensures Lines(text) == [text[..k]] + Lines(text[NextLineStart(text, k)..])
  {
  }

  /** The first line of a terminated file, its terminator, then the rest of the file. */
  lemma TerminatedFirst(lines: seq<string>, e: LineEnd, tail: string)
    requires |lines| > 0
    ensures Terminated(lines, e) + tail == lines[0] + Terminator(e) + (Terminated(lines[1..], e) + tail)
  {
  }

  /** With CR terminators, text made of lines and a tail not starting with '\n' does not start with '\n' either. */
  lemma TerminatedByCRStart(lines: seq<string>, tail: string)
    requires forall i :: 0 <= i < |lines| ==> NoSeparator(lines[i])
    requires |tail| == 0 || tail[0] != '\n'
    ensures var text := Terminated(lines, CR) + tail; |text| == 0 || text[0] != '\n'
  {
  }

  /** Reading a terminated file followed by `tail` returns its first line and goes on with the rest. */
  lemma TerminatedStep(lines: seq<string>, e: LineEnd, tail: string)
    requires |lines| > 0 && NoSeparator(lines[0])
    requires var rest := Terminated(lines[1..], e) + tail; e == CR ==> |rest| == 0 || rest[0] != '\n'
    ensures Lines(Terminated(lines, e) + tail) == [lines[0]] + Lines(Terminated(lines[1..], e) + tail)
  {
    var rest := Terminated(lines[1..], e) + tail;
    TerminatedFirst(lines, e, tail);
    NextLineStartAfter(lines[0], e, rest);
    LinesOfFirstLine(lines[0], Terminator(e), rest);
  }

  /** The terminated lines are read back in order, and reading then goes on with what follows them. */
  lemma {:induction false} LinesOfTerminatedThen(lines: seq<string>, e: LineEnd, tail: string)
    requires forall i :: 0 <= i < |lines| ==> NoSeparator(lines[i])
    requires e == CR ==> |tail| == 0 || tail[0] != '\n'
    ensures Lines(Terminated(lines, e) + tail) == lines + Lines(tail)
    decreases |lines|
  {
    if |lines| == 0 {
      assert Terminated(lines, e) + tail == tail;
    } else {
      if e == CR {
        TerminatedByCRStart(lines[1..], tail);
      }
      TerminatedStep(lines, e, tail);
      LinesOfTerminatedThen(lines[1..], e, tail);
      PrependFirst(lines, Lines(Terminated(lines, e) + tail), Lines(Terminated(lines[1..], e) + tail), Lines(tail));
    }
  }

  /** Putting the head of `s` in front of `s`'s tail followed by `l` gives `s` followed by `l`. */
  lemma PrependFirst<T>(s: seq<T>, x: seq<T>, r: seq<T>, l: seq<T>)
    requires |s| > 0 && x == [s[0]] + r && r == s[1..] + l
    ensures x == s + l
  {
  }

  /** Every terminated line is read back, and nothing else, whichever single convention the file uses. */
  lemma LinesOfTerminated(lines: seq<string>, e: LineEnd)
    requires forall i :: 0 <= i < |lines| ==> NoSeparator(lines[i])
    ensures Lines(Terminated(lines, e)) == lines
  {
    LinesOfTerminatedThen(lines, e, []);
    assert Terminated(lines, e) + [] == Terminated(lines, e);
  }

  /** A non-empty text without separators is read as a single line. */
  lemma LinesOfSingle(last: string)
    requires NoSeparator(last) && |last| > 0
    ensures Lines(last) == [last]
  {
  }

  /** A last line without a terminator is still read, after all the terminated ones. */
  lemma LinesOfUnterminated(lines: seq<string>, e: LineEnd, last: string)
    requires forall i :: 0 <= i < |lines| ==> NoSeparator(lines[i])
    requires NoSeparator(last) && |last| > 0
    ensures Lines(Terminated(lines, e) + last) == lines + [last]
  {
    assert !IsLineSeparator(last[0]);
    LinesOfTerminatedThen(lines, e, last);
    LinesOfSingle(last);
  }
}

=== FILE: strings.dfy ===
/**
 * Character and string helpers of the launcher: the ASCII restriction of
 * `toUpperCase`, `firstToUpper`, and `String.lastIndexOf(char)`.
 */
module Strings {

  predicate IsLowerAscii(c: char) {
    'a' <= c <= 'z'
  }

  /** Upper-casing of one character, restricted to the ASCII letters. */
  function UpperAscii(c: char): (u: char)
    ensures !IsLowerAscii(u)
    ensures IsLowerAscii(c) ==> 'A' <= u <= 'Z' && u as int + 32 == c as int
    ensures !IsLowerAscii(c) ==> u == c
  {
    if IsLowerAscii(c) then (c as int - 32) as char else c
  }

  /**
   * The text with its first character upper-cased and everything after it
   * left alone; the empty text is returned as it is.
   */
  function FirstToUpper(input: string): (r: string)
    ensures |r| == |input|
    ensures |input| > 0 ==> r[0] == UpperAscii(input[0]) && r[1..] == input[1..]
  {
    if |input| == 0 then input else [UpperAscii(input[0])] + input[1..]
  }

  /** Applying FirstToUpper a second time changes nothing. */
  lemma FirstToUpperIdempotent(input: string)
    ensures FirstToUpper(FirstToUpper(input)) == FirstToUpper(input)
  {
  }

  /** FirstToUpper changes its input exactly when the input starts with a lower-case letter. */
  lemma FirstToUpperFixedPoints(input: string)
    ensures FirstToUpper(input) == input <==> (|input| == 0 || !IsLowerAscii(input[0]))
  {
  }

  /**
   * Index of the last occurrence of `c` in `s`, or -1 when `c` does not
   * occur, like Java's `String.lastIndexOf(int)`.
   */
  function LastIndexOf(s: string, c: char): (r: int)
    ensures -1 <= r < |s|
    ensures r >= 0 ==> s[r] == c
    ensures forall j :: r < j < |s| ==> s[j] != c
    ensures r == -1 <==> c !in s
    decreases |s|
  {
    if |s| == 0 then -1
    else if s[|s| - 1] == c then |s| - 1
    else LastIndexOf(s[..|s| - 1], c)
  }
}

=== FILE: wrappers.dfy ===
/** The optional-value type the launcher model uses. */
module Wrappers {

  /** Either a value (`Some`) or no value at all (`None`). */
  datatype Option<+T> = None | Some(value: T)
}
